=== FILE: README.md ===
# Check settings and context-based scale provider, in Dafny

This project models two small pieces of decision logic of the Applitools Eyes PHP SDK and proves properties of them.

* **CheckSettings** (`eyes.sdk.php/fluent/CheckSettings.php`) is the fluent accumulator of one screenshot-comparison request. It holds:
  - an optional target region, an optional match level and an optional ignore-caret flag;
  - the stitch flag and a timeout in seconds, where `-1` means "unset";
  - six ordered region lists: ignore, floating, layout, content, exact and strict.

  Each PHP mutator changes `$this` and returns it. Here each mutator is a pure function from the settings before the call to the settings after it. The getters are the fields of the `Settings` datatype.
* **ContextBasedScaleProvider** (`eyes.selenium.php/ContextBasedScaleProvider.php`) decides from a captured image's width whether to scale the image down by the device pixel ratio. It is a two-state machine: the ratio is unknown (the sentinel `0`) until the first `updateScaleRatio` call, and known afterwards.

Modules:

| file | module | contents |
|---|---|---|
| `common.dfy` | `Common` | `Option`, `Result` and sequence associativity |
| `geometry.dfy` | `Geometry` | `Region`, `RectangleSize` and `CreateFromLTWH` |
| `region_selectors.dfy` | `RegionSelectors` | variadic arguments, the two selector wrappers, and the `instanceof Region` filter |
| `check_settings.dfy` | `CheckSettings` | the settings record, its constructor and every mutator |
| `fluent_chains.dfy` | `FluentChains` | chains of mutator calls and what each getter reports after one |
| `scale_provider.dfy` | `ContextBasedScaleProvider` | the provider record, its constructor, `updateScaleRatio` and `getScaleRatio` |

Modelling choices:

* A PHP variadic argument list is a `seq<Arg>`. An `Arg` is either a `Region` or some other value, so the model covers the `instanceof Region` filter of `ignore` and of the four `add*Region` mutators.
* `floating` passes each argument to `addFloatingRegion`, whose `Region` type hint throws on any other value. By then the earlier regions have already been added. `CheckSettings.Floating` therefore returns an `Outcome`: either `Returned(settings)` or `Threw(settings)`, where `settings` is the partly updated instance.
* Two quirks of the source are modelled as written:
  - `addExactRegion`, `addContentRegion` and `addStrictRegion` append to the layout list. The exact, content and strict lists are never written.
  - `addFloatingRegion` passes the region's right and bottom edges (`left + width`, `top + height`) where `CreateFromLTWH` expects a width and a height. The stored rectangle is therefore wider by `left` and taller by `top` (`RegionSelectors.FloatingRectangle`, `RegionSelectors.FloatingRectangleExtent`).
* PHP lets `matchLevel(null)` and `ignoreCaret(null)` reset those properties to unset. These mutators therefore take an `Option`.
* The timeout and the scale ratio are Dafny `real`s, which are exact rationals. Widths are `int`s.
* The docblocks of `addExactRegion`, `addContentRegion` and `addStrictRegion` (CheckSettings.php:194, :209, :224) say each adds exact, content or strict regions. The code appends all three to the layout list, and the model follows the code.
* The scale provider's constructor validates nothing; the model stores whatever it is given.
* `timeout` stores `ms / 1000.0` for any `ms`, negative included.

## Model

| member | source | states |
|---|---|---|
| `CheckSettings.New` | eyes.sdk.php/fluent/CheckSettings.php:11-51 | a fresh instance carries the given target region (or none), no stitching, the timeout sentinel -1, no match level, no caret flag and six empty region lists |
| `CheckSettings.Ignore` | eyes.sdk.php/fluent/CheckSettings.php:58-66 | only the ignore list changes; it keeps its old entries as a prefix and grows by at most the number of arguments; it grows by exactly that many iff every argument is a Region; with all-Region arguments the i-th new entry wraps the i-th argument |
| `CheckSettings.IgnoreTwice` | eyes.sdk.php/fluent/CheckSettings.php:58-66 | two `ignore` calls in a row equal one call with both argument lists concatenated, so the order across calls is kept |
| `CheckSettings.IgnoreOrderExample` | eyes.sdk.php/fluent/CheckSettings.php:58-66 | `ignore($r1)->ignore($r2)` on a fresh instance reports `[$r1, $r2]` |
| `CheckSettings.Fully` | eyes.sdk.php/fluent/CheckSettings.php:73-77 | only the stitch flag changes, and it becomes the argument; the argument defaults to true |
| `CheckSettings.AddFloatingRegion` | eyes.sdk.php/fluent/CheckSettings.php:102-114 | only the floating list changes; it grows by exactly one entry after the old ones; that entry holds the edge-built rectangle and the four offsets in up, down, left, right order |
| `CheckSettings.Floating` | eyes.sdk.php/fluent/CheckSettings.php:85-111 | only the floating list changes; the call throws iff some argument is not a Region; the list grows by the number of Region arguments before the first other value; each new entry has the same offset in all four directions |
| `CheckSettings.FloatingOneIsAddFloating` | eyes.sdk.php/fluent/CheckSettings.php:85-91 | `floating(m, $r)` returns normally and does exactly what `addFloatingRegion($r, m, m, m, m)` does |
| `CheckSettings.FloatingAppend` | eyes.sdk.php/fluent/CheckSettings.php:85-91 | `floating` over two argument lists is the first call, then the second (unless the first threw), so regions are added one at a time in argument order |
| `CheckSettings.FloatingAllRegions` | eyes.sdk.php/fluent/CheckSettings.php:85-91 | with all-Region arguments, `floating` returns normally; its only effect is to append one entry per argument, so the list grows by exactly the number of arguments |
| `CheckSettings.Timeout` | eyes.sdk.php/fluent/CheckSettings.php:121-125 | only the timeout changes; the stored seconds times 1000 give back the milliseconds; the stored value is non-negative iff the milliseconds are |
| `CheckSettings.TimeoutExamples` | eyes.sdk.php/fluent/CheckSettings.php:121-125 | `timeout(5000)` gives 5.0; `timeout(-1000)` is the only call whose stored value equals the "unset" value -1 under PHP's loose `==` |
| `CheckSettings.SetMatchLevel` | eyes.sdk.php/fluent/CheckSettings.php:172-176 | only the match level changes, and it becomes the argument (null makes it unset) |
| `CheckSettings.UseLayout` | eyes.sdk.php/fluent/CheckSettings.php:131-135 | only the match level changes, to LAYOUT |
| `CheckSettings.UseExact` | eyes.sdk.php/fluent/CheckSettings.php:141-145 | only the match level changes, to EXACT |
| `CheckSettings.UseStrict` | eyes.sdk.php/fluent/CheckSettings.php:151-155 | only the match level changes, to STRICT |
| `CheckSettings.UseContent` | eyes.sdk.php/fluent/CheckSettings.php:161-165 | only the match level changes, to CONTENT |
| `CheckSettings.MatchLevelLastWins` | eyes.sdk.php/fluent/CheckSettings.php:131-176 | of two match-level settings the later wins |
| `CheckSettings.AppendLayout` | eyes.sdk.php/fluent/CheckSettings.php:185-189 | only the layout list changes; it keeps its old entries as a prefix; it grows by exactly the number of arguments iff all are Regions, and then the i-th new entry wraps the i-th argument |
| `CheckSettings.AddLayoutRegion` | eyes.sdk.php/fluent/CheckSettings.php:183-191 | only the layout list changes; it gains a selector for each Region argument, in order |
| `CheckSettings.AddExactRegion` | eyes.sdk.php/fluent/CheckSettings.php:198-206 | as written: only the layout list changes; the exact list stays as it was |
| `CheckSettings.AddContentRegion` | eyes.sdk.php/fluent/CheckSettings.php:213-221 | as written: only the layout list changes; the content list stays as it was |
| `CheckSettings.AddStrictRegion` | eyes.sdk.php/fluent/CheckSettings.php:228-236 | as written: only the layout list changes; the strict list stays as it was |
| `CheckSettings.AddRegionMutatorsCoincide` | eyes.sdk.php/fluent/CheckSettings.php:183-236 | the four `add*Region` mutators produce identical settings for identical arguments |
| `CheckSettings.SetIgnoreCaret` | eyes.sdk.php/fluent/CheckSettings.php:243-247 | only the caret flag changes, and it becomes the argument |
| `CheckSettings.UpdateTargetRegion` | eyes.sdk.php/fluent/CheckSettings.php:308-311 | only the target region changes, and it becomes the given region |
| `RegionSelectors.WrapRegions` | eyes.sdk.php/fluent/CheckSettings.php:60-64 | the filter yields at most one selector per argument; it yields exactly one per argument iff all are Regions, and then the i-th selector wraps the i-th argument |
| `RegionSelectors.WrapRegionsMembership` | eyes.sdk.php/fluent/CheckSettings.php:60-64 | a rectangle is among the selectors iff it is among the Region arguments |
| `RegionSelectors.WrapRegionsAppend` | eyes.sdk.php/fluent/CheckSettings.php:60-64 | filtering distributes over concatenation of argument lists |
| `RegionSelectors.FirstNonRegion` | eyes.sdk.php/fluent/CheckSettings.php:87-88 | the index found lies within the arguments; every argument before it is a Region; the argument at it, if any, is not |
| `RegionSelectors.FloatingRectangle` | eyes.sdk.php/fluent/CheckSettings.php:106-111 | the rectangle handed to `CreateFromLTWH` keeps the given corner, and its width and height exceed the given ones by `left` and `top` |
| `RegionSelectors.FloatingRectangleExtent` | eyes.sdk.php/fluent/CheckSettings.php:104-111 | the stored floating rectangle keeps the given width iff `left` is 0, and the given height iff `top` is 0 |
| `FluentChains.Apply` | eyes.sdk.php/fluent/CheckSettings.php:58-247 | one mutator call throws iff it is `addFloatingRegion` with a region that is not a Region, or `floating` with such an argument; a direct `addFloatingRegion` that throws leaves the instance unchanged; no call changes the target region or the exact, content and strict lists |
| `FluentChains.Run` | eyes.sdk.php/fluent/CheckSettings.php:58-247 | a chain of calls on one instance, each returning `$this`, stops at the first throw; whatever happens, the target region and the exact, content and strict lists are left as they were |
| `FluentChains.RunAppend` | eyes.sdk.php/fluent/CheckSettings.php:58-247 | running two chains one after the other is running their concatenation; a throw stops everything after it |
| `FluentChains.RunThrowsIff` | eyes.sdk.php/fluent/CheckSettings.php:85-102 | a chain throws iff one of its calls is `addFloatingRegion` with a non-Region region or `floating` with a non-Region argument |
| `FluentChains.FreshChainNeverFillsExactContentStrict` | eyes.sdk.php/fluent/CheckSettings.php:321-348 | after any chain on a fresh instance, the exact, content and strict getters report empty lists |
| `FluentChains.ApplyLists` | eyes.sdk.php/fluent/CheckSettings.php:58-236 | a call that does not throw appends to each region list exactly what that call hands to it |
| `FluentChains.ApplyScalars` | eyes.sdk.php/fluent/CheckSettings.php:73-176 | a call sets the match level, stitch flag, timeout and caret flag iff it is a call of that category, and keeps them otherwise |
| `FluentChains.RunAddsIgnore` | eyes.sdk.php/fluent/CheckSettings.php:58-66 | after a well-typed chain the ignore list is the old list followed by each `ignore` call's selectors, in call order |
| `FluentChains.RunAddsLayout` | eyes.sdk.php/fluent/CheckSettings.php:183-236 | after a well-typed chain the layout list is the old list followed by each `add*Region` call's selectors, in call order |
| `FluentChains.IgnoreAddedWrapsAll` | eyes.sdk.php/fluent/CheckSettings.php:58-66 | the selectors added call by call are the filter applied to all `ignore` arguments at once |
| `FluentChains.LayoutAddedWrapsAll` | eyes.sdk.php/fluent/CheckSettings.php:183-236 | the selectors added call by call are the filter applied to all `add*Region` arguments at once |
| `FluentChains.RunAccumulatesRegions` | eyes.sdk.php/fluent/CheckSettings.php:58-236 | after a well-typed chain the ignore and layout lists hold the old entries, then one selector per Region argument of their calls in argument order, with non-Region arguments skipped |
| `FluentChains.RunAccumulatesFloating` | eyes.sdk.php/fluent/CheckSettings.php:85-114 | after a well-typed chain the floating list holds the old entries, then the entries of each `floating` and `addFloatingRegion` call in call order |
| `FluentChains.RunLastWriteWins` | eyes.sdk.php/fluent/CheckSettings.php:73-176 | after a well-typed chain each of match level, stitch flag, timeout and caret flag has the value of the last call that sets it, or its old value when no call does |
| `ContextBasedScaleProvider.New` | eyes.selenium.php/ContextBasedScaleProvider.php:35-46 | the constructor stores both sizes, the method and the pixel ratio unchanged; the ratio starts unknown, so `getScaleRatio` fails |
| `ContextBasedScaleProvider.GetScaleRatio` | eyes.selenium.php/ContextBasedScaleProvider.php:48-51 | succeeds iff the ratio is not the sentinel 0, and then returns the stored ratio; otherwise it fails with the invalid-state error "scaleRatio not defined yet" |
| `ContextBasedScaleProvider.UpdateScaleRatio` | eyes.selenium.php/ContextBasedScaleProvider.php:66-80 | sizes, method and pixel ratio are unchanged; the ratio is 1 when the width is within 1 of the viewport width or within 10 of the content width (bounds included); otherwise the ratio times the pixel ratio is 1; the ratio is known afterwards |
| `ContextBasedScaleProvider.RatioIsOneIff` | eyes.selenium.php/ContextBasedScaleProvider.php:72-79 | the ratio is 1 iff the width matches a reference width or the pixel ratio is 1 |
| `ContextBasedScaleProvider.RatioScalesDown` | eyes.selenium.php/ContextBasedScaleProvider.php:76-78 | with a pixel ratio of at least 1, the ratio lies in (0, 1] |
| `ContextBasedScaleProvider.GetAfterUpdate` | eyes.selenium.php/ContextBasedScaleProvider.php:48-80 | after any update, `getScaleRatio` succeeds and returns the computed ratio |
| `ContextBasedScaleProvider.UpdateDependsOnlyOnConfiguration` | eyes.selenium.php/ContextBasedScaleProvider.php:66-80 | two providers with the same sizes, method and pixel ratio give the same result for the same width, whatever ratio they held before |
| `ContextBasedScaleProvider.UpdateIdempotent` | eyes.selenium.php/ContextBasedScaleProvider.php:66-80 | repeating an update with the same width changes nothing |
| `ContextBasedScaleProvider.UpdateOverrides` | eyes.selenium.php/ContextBasedScaleProvider.php:66-80 | a later update overrides an earlier one |
| `ContextBasedScaleProvider.ExampleRatios` | eyes.selenium.php/ContextBasedScaleProvider.php:17-18 | viewport 1000, content 2000, pixel ratio 2: every width from 999 to 1001 and from 1990 to 2010 gives 1; widths 998, 1002, 1989, 2011 and 1500 give 0.5 |

## Left out

- `scaleImage` (ContextBasedScaleProvider.php:57-60) hands the pixel resampling to `ImageUtils` and an external image library. That code is not part of this model.
- `__toString` (CheckSettings.php:313-316) only builds a log string.
- The internals of `Region`, `RegionsByRectangle`, `FloatingRegionsByRectangle`, `MatchLevel`, `RectangleSize`, `ScaleMethod` and `ArgumentGuard` are not part of this model:
  - regions and sizes are plain records;
  - the selector wrappers are tagged datatypes;
  - the match level is a four-value enum;
  - the scale method is an opaque tag;
  - the guard's failure is a `Result` error.
- `CreateFromLTWH` is assumed to use its four arguments as left, top, width and height, as its name says.
- PHP's dynamic typing is narrowed in these places:
  - `fully` takes a `bool`;
  - `timeout` takes integer milliseconds;
  - `matchLevel` takes one of the four levels or null;
  - `ignoreCaret` takes a `bool` or null;
  - floating offsets are integers.
- CheckSettings.New and CheckSettings.UpdateTargetRegion take a Region, or no region for the constructor. PHP's `Region` type hints at CheckSettings.php:48 and :308 throw a TypeError for any other value, before anything is stored. The model cannot express such a call, so this error is not modelled. `addFloatingRegion`'s own type hint is modelled in `FluentChains.Apply`.
- Image, viewport and content widths are integers, as the `@param int` annotation of `updateScaleRatio` says. Fractional widths are not modelled.
- CheckSettings.TimeoutExamples: the "unset" timeout is the PHP int `-1`, while `timeout` stores a float. The model gives both the one type `real`, so it cannot tell `-1` from `-1.0` as PHP's strict `===` does; the collision it proves holds under loose `==` only.
- Floating-point rounding is not modelled: the timeout and the ratio are exact rationals.
- `ContextBasedScaleProvider.UpdateScaleRatio` requires a non-zero device pixel ratio when the width matches neither reference width. Only in that case does the source divide by it, without checking. PHP's division-by-zero failure is not modelled.
- The test class `TestFluentApi_Firefox_ForceFPS` only configures WebDriver capabilities.
- Concurrency does not arise: both components are single-threaded value objects.

=== FILE: check_settings.dfy ===
/** The fluent check-settings accumulator of one screenshot-comparison
    request (eyes.sdk.php/fluent/CheckSettings.php). Each PHP mutator updates
    `$this` and returns it; here each one is a pure function from the settings
    before the call to the settings after it. */
module CheckSettings {
  import opened Common
  import opened Geometry
  import opened RegionSelectors

  /** The comparison strictness levels the shortcut mutators select. */
  datatype MatchLevel = Layout | Exact | Strict | Content

  /** The timeout a fresh instance carries, meaning "not set". */
  const UnsetTimeout: real := -1.0

  /** The state of one CheckSettings instance, one component per property. */
  datatype Settings = Settings(
    targetRegion: Option<Region>,
    matchLevel: Option<MatchLevel>,
    ignoreCaret: Option<bool>,
    stitchContent: bool,
    timeout: real,
    ignoreRegions: seq<RegionSelector>,
    floatingRegions: seq<FloatingSelector>,
    layoutRegions: seq<RegionSelector>,
    contentRegions: seq<RegionSelector>,
    exactRegions: seq<RegionSelector>,
    strictRegions: seq<RegionSelector>)

  /** Names for the eleven properties of Settings, in declaration order. */
  datatype Field =
    | Target | Level | Caret | Stitch | Time
    | IgnoreList | FloatingList | LayoutList | ContentList | ExactList | StrictList

  /** `b` agrees with `a` on every property except possibly `f`. */
  predicate ChangesAtMost(a: Settings, b: Settings, f: Field)
  {
    && (f == Target || a.targetRegion == b.targetRegion)
    && (f == Level || a.matchLevel == b.matchLevel)
    && (f == Caret || a.ignoreCaret == b.ignoreCaret)
    && (f == Stitch || a.stitchContent == b.stitchContent)
    && (f == Time || a.timeout == b.timeout)
    && (f == IgnoreList || a.ignoreRegions == b.ignoreRegions)
    && (f == FloatingList || a.floatingRegions == b.floatingRegions)
    && (f == LayoutList || a.layoutRegions == b.layoutRegions)
    && (f == ContentList || a.contentRegions == b.contentRegions)
    && (f == ExactList || a.exactRegions == b.exactRegions)
    && (f == StrictList || a.strictRegions == b.strictRegions)
  }

  /** The result of a PHP call on the instance: it either returns the
      instance, or throws after having mutated it as far as it got. */
  datatype Outcome = Returned(settings: Settings) | Threw(settings: Settings)

  /** The constructor, with an optional target region. */
  function New(region: Option<Region>): (s: Settings)
    ensures s.targetRegion == region
    ensures !s.stitchContent && s.timeout == UnsetTimeout
    ensures s.matchLevel == None && s.ignoreCaret == None
    ensures s.ignoreRegions == [] && s.floatingRegions == [] && s.layoutRegions == []
    ensures s.contentRegions == [] && s.exactRegions == [] && s.strictRegions == []
  {
    Settings(region, None, None, false, UnsetTimeout, [], [], [], [], [], [])
  }

  /** `ignore(...$regions)`: appends a rectangle selector for each Region
      argument, in order, and skips the rest. */
  function Ignore(s: Settings, args: seq<Arg>): (r: Settings)
    ensures ChangesAtMost(s, r, IgnoreList)
    ensures |s.ignoreRegions| <= |r.ignoreRegions| <= |s.ignoreRegions| + |args|
    ensures r.ignoreRegions[..|s.ignoreRegions|] == s.ignoreRegions
    ensures |r.ignoreRegions| == |s.ignoreRegions| + |args| <==> AllRegions(args)
    ensures AllRegions(args) ==>
              forall i :: 0 <= i < |args| ==> r.ignoreRegions[|s.ignoreRegions| + i] == ByRectangle(args[i].region)
  {
    s.(ignoreRegions := s.ignoreRegions + WrapRegions(args))
  }

  /** `fully($stitch = true)`: sets whether the full content is stitched. */
  function Fully(s: Settings, stitch: bool := true): (r: Settings)
    ensures ChangesAtMost(s, r, Stitch)
    ensures r.stitchContent == stitch
  {
    s.(stitchContent := stitch)
  }

  /** `addFloatingRegion($region, $up, $down, $left, $right)`: appends exactly
      one floating selector, whose rectangle is built from the region's edges
      and whose offsets are the four given ones in order. */
  function AddFloatingRegion(s: Settings, region: Region, maxUpOffset: int, maxDownOffset: int,
                             maxLeftOffset: int, maxRightOffset: int): (r: Settings)
    ensures ChangesAtMost(s, r, FloatingList)
    ensures |r.floatingRegions| == |s.floatingRegions| + 1
    ensures r.floatingRegions[..|s.floatingRegions|] == s.floatingRegions
    ensures r.floatingRegions[|s.floatingRegions|] ==
              FloatingByRectangle(FloatingRectangle(region), maxUpOffset, maxDownOffset,
                                  maxLeftOffset, maxRightOffset)
  {
    var entry := FloatingByRectangle(FloatingRectangle(region), maxUpOffset, maxDownOffset,
                                     maxLeftOffset, maxRightOffset);
    s.(floatingRegions := s.floatingRegions + [entry])
  }

  /** `floating($maxOffset, ...$regions)`: calls `addFloatingRegion` with the
      same offset in all four directions for each argument in turn. The
      callee's `Region` type hint makes the first non-Region argument throw,
      after the Region arguments before it have been added. */
  function Floating(s: Settings, maxOffset: int, args: seq<Arg>): (o: Outcome)
    ensures ChangesAtMost(s, o.settings, FloatingList)
    ensures o.Threw? <==> !AllRegions(args)
    ensures |o.settings.floatingRegions| == |s.floatingRegions| + FirstNonRegion(args)
    ensures o.settings.floatingRegions[..|s.floatingRegions|] == s.floatingRegions
    ensures forall i :: 0 <= i < FirstNonRegion(args) ==>
              o.settings.floatingRegions[|s.floatingRegions| + i] ==
              FloatingByRectangle(FloatingRectangle(args[i].region),
                                  maxOffset, maxOffset, maxOffset, maxOffset)
    decreases |args|
  {
    if |args| == 0 then Returned(s)
    else
      match args[0]
      case NonRegion => Threw(s)
      case RegionArg(reg) =>
        var next := AddFloatingRegion(s, reg, maxOffset, maxOffset, maxOffset, maxOffset);
        var o := Floating(next, maxOffset, args[1..]);
        assert forall i :: 1 <= i < |args| ==> args[1..][i - 1] == args[i];
        assert o.settings.floatingRegions[..|s.floatingRegions|]
            == o.settings.floatingRegions[..|next.floatingRegions|][..|s.floatingRegions|];
        o
  }

  /** `timeout($ms)`: stores the timeout in seconds, `$ms / 1000.0`. */
  function Timeout(s: Settings, milliseconds: int): (r: Settings)
    ensures ChangesAtMost(s, r, Time)
    ensures r.timeout * 1000.0 == milliseconds as real
    ensures r.timeout >= 0.0 <==> milliseconds >= 0
  {
    s.(timeout := milliseconds as real / 1000.0)
  }

  /** `matchLevel($level)`: sets the match level; PHP accepts null too, which
      makes it unset again. */
  function SetMatchLevel(s: Settings, level: Option<MatchLevel>): (r: Settings)
    ensures ChangesAtMost(s, r, Level)
    ensures r.matchLevel == level
  {
    s.(matchLevel := level)
  }

  /** `layout()`. */
  function UseLayout(s: Settings): (r: Settings)
    ensures ChangesAtMost(s, r, Level)
    ensures r.matchLevel == Some(Layout)
  {
    SetMatchLevel(s, Some(Layout))
  }

  /** `exact()`. */
  function UseExact(s: Settings): (r: Settings)
    ensures ChangesAtMost(s, r, Level)
    ensures r.matchLevel == Some(Exact)
  {
    SetMatchLevel(s, Some(Exact))
  }

  /** `strict()`. */
  function UseStrict(s: Settings): (r: Settings)
    ensures ChangesAtMost(s, r, Level)
    ensures r.matchLevel == Some(Strict)
  {
    SetMatchLevel(s, Some(Strict))
  }

  /** `content()`. */
  function UseContent(s: Settings): (r: Settings)
    ensures ChangesAtMost(s, r, Level)
    ensures r.matchLevel == Some(Content)
  {
    SetMatchLevel(s, Some(Content))
  }

  /** The body the four `add*Region` mutators share: append a rectangle
      selector for each Region argument to the layout list. */
  function AppendLayout(s: Settings, args: seq<Arg>): (r: Settings)
    ensures ChangesAtMost(s, r, LayoutList)
    ensures |s.layoutRegions| <= |r.layoutRegions| <= |s.layoutRegions| + |args|
    ensures r.layoutRegions[..|s.layoutRegions|] == s.layoutRegions
    ensures |r.layoutRegions| == |s.layoutRegions| + |args| <==> AllRegions(args)
    ensures AllRegions(args) ==>
              forall i :: 0 <= i < |args| ==> r.layoutRegions[|s.layoutRegions| + i] == ByRectangle(args[i].region)
  {
    s.(layoutRegions := s.layoutRegions + WrapRegions(args))
  }

  /** `addLayoutRegion(...$regions)`. */
  function AddLayoutRegion(s: Settings, args: seq<Arg>): (r: Settings)
    ensures ChangesAtMost(s, r, LayoutList)
    ensures r.layoutRegions == s.layoutRegions + WrapRegions(args)
  {
    AppendLayout(s, args)
  }

  /** `addExactRegion(...$regions)`: as written, it appends to the layout
      list; the exact list stays as it was. */
  function AddExactRegion(s: Settings, args: seq<Arg>): (r: Settings)
    ensures ChangesAtMost(s, r, LayoutList)
    ensures r.exactRegions == s.exactRegions
    ensures r.layoutRegions == s.layoutRegions + WrapRegions(args)
  {
    AppendLayout(s, args)
  }

  /** `addContentRegion(...$regions)`: as written, it appends to the layout
      list; the content list stays as it was. */
  function AddContentRegion(s: Settings, args: seq<Arg>): (r: Settings)
    ensures ChangesAtMost(s, r, LayoutList)
    ensures r.contentRegions == s.contentRegions
    ensures r.layoutRegions == s.layoutRegions + WrapRegions(args)
  {
    AppendLayout(s, args)
  }

  /** `addStrictRegion(...$regions)`: as written, it appends to the layout
      list; the strict list stays as it was. */
  function AddStrictRegion(s: Settings, args: seq<Arg>): (r: Settings)
    ensures ChangesAtMost(s, r, LayoutList)
    ensures r.strictRegions == s.strictRegions
    ensures r.layoutRegions == s.layoutRegions + WrapRegions(args)
  {
    AppendLayout(s, args)
  }

  /** `ignoreCaret($ignoreCaret)`: PHP accepts null too, which makes the
      property unset again. */
  function SetIgnoreCaret(s: Settings, ignoreCaret: Option<bool>): (r: Settings)
    ensures ChangesAtMost(s, r, Caret)
    ensures r.ignoreCaret == ignoreCaret
  {
    s.(ignoreCaret := ignoreCaret)
  }

  /** The protected `updateTargetRegion(Region $region)` used by subclasses. */
  function UpdateTargetRegion(s: Settings, region: Region): (r: Settings)
    ensures ChangesAtMost(s, r, Target)
    ensures r.targetRegion == Some(region)
  {
    s.(targetRegion := Some(region))
  }

  // Properties relating several mutator calls.

  /** `floating(m, $r)` for one region does what `addFloatingRegion($r, m, m,
      m, m)` does, and returns normally. */
  lemma FloatingOneIsAddFloating(s: Settings, maxOffset: int, region: Region)
    ensures Floating(s, maxOffset, [RegionArg(region)])
         == Returned(AddFloatingRegion(s, region, maxOffset, maxOffset, maxOffset, maxOffset))
  {
  }

  /** `floating` over two argument lists in a row equals one `floating` over
      their concatenation, unless the first call already threw. */
  lemma {:induction false} FloatingAppend(s: Settings, maxOffset: int, a: seq<Arg>, b: seq<Arg>)
    ensures Floating(s, maxOffset, a + b)
         == if Floating(s, maxOffset, a).Threw? then Floating(s, maxOffset, a)
            else Floating(Floating(s, maxOffset, a).settings, maxOffset, b)
    decreases |a|
  {
    if |a| == 0 {
      assert a + b == b;
    } else {
      assert (a + b)[0] == a[0];
      assert (a + b)[1..] == a[1..] + b;
      if a[0].RegionArg? {
        var next := AddFloatingRegion(s, a[0].region, maxOffset, maxOffset, maxOffset, maxOffset);
        FloatingAppend(next, maxOffset, a[1..], b);
      }
    }
  }

  /** The floating selectors `floating(m, ...)` is meant to add for the
      Region arguments: one per Region argument, in order, with offset `m` in
      all four directions. */
  function FloatingEntries(maxOffset: int, args: seq<Arg>): seq<FloatingSelector>
  {
    var w := WrapRegions(args);
    seq(|w|, i requires 0 <= i < |w| =>
      FloatingByRectangle(FloatingRectangle(w[i].region), maxOffset, maxOffset, maxOffset, maxOffset))
  }

  /** When every argument is a Region, `floating` returns normally and its
      only effect is to append the entries above: the floating list grows by
      exactly the number of arguments. */
  lemma FloatingAllRegions(s: Settings, maxOffset: int, args: seq<Arg>)
    requires AllRegions(args)
    ensures Floating(s, maxOffset, args)
         == Returned(s.(floatingRegions := s.floatingRegions + FloatingEntries(maxOffset, args)))
  {
    var o := Floating(s, maxOffset, args);
    var expected := s.floatingRegions + FloatingEntries(maxOffset, args);
    var n := |s.floatingRegions|;
    assert FirstNonRegion(args) == |args|;
    assert |o.settings.floatingRegions| == |expected|;
    forall i | 0 <= i < |expected|
      ensures o.settings.floatingRegions[i] == expected[i]
    {
      if i < n {
        assert o.settings.floatingRegions[i] == o.settings.floatingRegions[..n][i];
      }
    }
  }

  /** The four `add*Region` mutators are indistinguishable: whichever is
      called, the same settings result. */
  lemma AddRegionMutatorsCoincide(s: Settings, args: seq<Arg>)
    ensures AddExactRegion(s, args) == AddLayoutRegion(s, args)
    ensures AddContentRegion(s, args) == AddLayoutRegion(s, args)
    ensures AddStrictRegion(s, args) == AddLayoutRegion(s, args)
  {
  }

  /** Two `ignore` calls in a row equal one call with both argument lists, so
      the order of the arguments across calls is kept. */
  lemma IgnoreTwice(s: Settings, a: seq<Arg>, b: seq<Arg>)
    ensures Ignore(Ignore(s, a), b) == Ignore(s, a + b)
  {
    WrapRegionsAppend(a, b);
  }

  /** `ignore($r1)->ignore($r2)` on a fresh instance reports `[$r1, $r2]`,
      in that order. */
  lemma IgnoreOrderExample(r1: Region, r2: Region)
    ensures Ignore(Ignore(New(None), [RegionArg(r1)]), [RegionArg(r2)]).ignoreRegions
         == [ByRectangle(r1), ByRectangle(r2)]
  {
  }

  /** Of two match-level settings, the later one wins. */
  lemma MatchLevelLastWins(s: Settings, first: Option<MatchLevel>, second: Option<MatchLevel>)
    ensures SetMatchLevel(SetMatchLevel(s, first), second) == SetMatchLevel(s, second)
  {
  }

  /** `timeout(5000)` yields 5 seconds; `timeout(-1000)` yields a value equal
      to the one that marks an unset timeout under PHP's loose `==` (the unset
      value is the int -1, the stored one the float -1.0). */
  lemma TimeoutExamples(s: Settings)
    ensures Timeout(s, 5000).timeout == 5.0
    ensures Timeout(s, -1000).timeout == UnsetTimeout
    ensures forall ms :: Timeout(s, ms).timeout == UnsetTimeout <==> ms == -1000
  {
  }
}

=== FILE: common.dfy ===
/** Small failure-carrying datatypes shared by the model. */
module Common {

  /** An optional value; stands for a PHP property or argument that may be null. */
  datatype Option<+T> = None | Some(value: T)

  /** The outcome of an operation that can fail with an error of type E. */
  datatype Result<+T, +E> = Success(value: T) | Failure(error: E)

  /** Concatenation regroups freely; stated once so that proofs about
      accumulated lists can use it without rediscovering it. */
  lemma AppendAssociative<T>(a: seq<T>, b: seq<T>, c: seq<T>)
    ensures (a + b) + c == a + (b + c)
  {
  }
}

=== FILE: fluent_chains.dfy ===
/** Chains of fluent calls on one CheckSettings instance, such as
    `(new CheckSettings())->ignore($r1)->fully()->timeout(5000)`. Every
    mutator returns `$this`, so a chain is the mutators applied in order; a
    call that throws ends the chain. */
module FluentChains {
  import opened Common
  import opened Geometry
  import opened RegionSelectors
  import CS = CheckSettings

  /** One public mutator call with its arguments. */
  datatype Call =
    | Ignore(args: seq<Arg>)
    | Fully(stitch: bool)
    | Floating(maxOffset: int, args: seq<Arg>)
    | AddFloatingRegion(region: Arg, maxUpOffset: int, maxDownOffset: int,
                        maxLeftOffset: int, maxRightOffset: int)
    | Timeout(milliseconds: int)
    | Layout | Exact | Strict | Content
    | MatchLevel(level: Option<CS.MatchLevel>)
    | AddLayoutRegion(args: seq<Arg>)
    | AddExactRegion(args: seq<Arg>)
    | AddContentRegion(args: seq<Arg>)
    | AddStrictRegion(args: seq<Arg>)
    | IgnoreCaret(ignoreCaret: Option<bool>)

  /** The calls that throw a TypeError at the `Region` type hint of
      `addFloatingRegion`: a direct call whose region is not a Region, and
      `floating` with an argument that is not a Region, which it forwards
      there. */
  predicate Throws(c: Call)
  {
    || (c.Floating? && !AllRegions(c.args))
    || (c.AddFloatingRegion? && c.region.NonRegion?)
  }

  /** No call of the chain throws. */
  predicate WellTyped(calls: seq<Call>)
  {
    forall i :: 0 <= i < |calls| ==> !Throws(calls[i])
  }

  /** The effect of one call. */
  function Apply(s: CS.Settings, c: Call): (o: CS.Outcome)
    ensures o.Threw? <==> Throws(c)
    ensures c.AddFloatingRegion? && c.region.NonRegion? ==> o.settings == s
    ensures o.settings.targetRegion == s.targetRegion
    ensures o.settings.exactRegions == s.exactRegions
    ensures o.settings.contentRegions == s.contentRegions
    ensures o.settings.strictRegions == s.strictRegions
  {
    match c
    case Ignore(args) => CS.Returned(CS.Ignore(s, args))
    case Fully(stitch) => CS.Returned(CS.Fully(s, stitch))
    case Floating(m, args) => CS.Floating(s, m, args)
    case AddFloatingRegion(region, up, down, left, right) =>
      if region.NonRegion? then CS.Threw(s)
      else CS.Returned(CS.AddFloatingRegion(s, region.region, up, down, left, right))
    case Timeout(ms) => CS.Returned(CS.Timeout(s, ms))
    case Layout => CS.Returned(CS.UseLayout(s))
    case Exact => CS.Returned(CS.UseExact(s))
    case Strict => CS.Returned(CS.UseStrict(s))
    case Content => CS.Returned(CS.UseContent(s))
    case MatchLevel(level) => CS.Returned(CS.SetMatchLevel(s, level))
    case AddLayoutRegion(args) => CS.Returned(CS.AddLayoutRegion(s, args))
    case AddExactRegion(args) => CS.Returned(CS.AddExactRegion(s, args))
    case AddContentRegion(args) => CS.Returned(CS.AddContentRegion(s, args))
    case AddStrictRegion(args) => CS.Returned(CS.AddStrictRegion(s, args))
    case IgnoreCaret(value) => CS.Returned(CS.SetIgnoreCaret(s, value))
  }

  /** The effect of a chain of calls: each call in turn, until one throws.
      No call of any chain changes the target region or writes the exact,
      content and strict lists. */
  function Run(s: CS.Settings, calls: seq<Call>): (o: CS.Outcome)
    ensures o.settings.targetRegion == s.targetRegion
    ensures o.settings.exactRegions == s.exactRegions
    ensures o.settings.contentRegions == s.contentRegions
    ensures o.settings.strictRegions == s.strictRegions
    decreases |calls|
  {
    if |calls| == 0 then CS.Returned(s)
    else
      var first := Apply(s, calls[0]);
      if first.Threw? then first else Run(first.settings, calls[1..])
  }

  // Reference definitions of what each accessor should report after a
  // well-typed chain, written per call and independently of Apply and Run.

  /** The arguments a call hands to the ignore list. */
  function IgnoreOf(c: Call): seq<Arg>
  {
    if c.Ignore? then c.args else []
  }

  /** The arguments a call hands to the layout list: those of all four
      `add*Region` mutators. */
  function LayoutOf(c: Call): seq<Arg>
  {
    if c.AddLayoutRegion? || c.AddExactRegion? || c.AddContentRegion? || c.AddStrictRegion?
    then c.args else []
  }

  /** The floating selectors a call adds. */
  function FloatingOf(c: Call): seq<FloatingSelector>
  {
    if c.Floating? then CS.FloatingEntries(c.maxOffset, c.args)
    else if c.AddFloatingRegion? && c.region.RegionArg? then
      [FloatingByRectangle(FloatingRectangle(c.region.region), c.maxUpOffset, c.maxDownOffset,
                           c.maxLeftOffset, c.maxRightOffset)]
    else []
  }

  /** The match level a call selects, if it selects one. */
  function LevelOf(c: Call): Option<Option<CS.MatchLevel>>
  {
    match c
    case Layout => Some(Some(CS.Layout))
    case Exact => Some(Some(CS.Exact))
    case Strict => Some(Some(CS.Strict))
    case Content => Some(Some(CS.Content))
    case MatchLevel(level) => Some(level)
    case _ => None
  }

  /** The stitch flag a call sets, if it sets one. */
  function StitchOf(c: Call): Option<bool>
  {
    if c.Fully? then Some(c.stitch) else None
  }

  /** The timeout in seconds a call sets, if it sets one. */
  function TimeoutOf(c: Call): Option<real>
  {
    if c.Timeout? then Some(c.milliseconds as real / 1000.0) else None
  }

  /** The caret flag a call sets, if it sets one. */
  function CaretOf(c: Call): Option<Option<bool>>
  {
    if c.IgnoreCaret? then Some(c.ignoreCaret) else None
  }

  /** The value a property keeps when a call does not set it. */
  function Updated<T>(current: T, newValue: Option<T>): T
  {
    match newValue
    case Some(v) => v
    case None => current
  }

  /** The ignore selectors added by each call, in call order. */
  function IgnoreAdded(calls: seq<Call>): seq<RegionSelector>
  {
    if |calls| == 0 then [] else WrapRegions(IgnoreOf(calls[0])) + IgnoreAdded(calls[1..])
  }

  /** The layout selectors added by each call, in call order. */
  function LayoutAdded(calls: seq<Call>): seq<RegionSelector>
  {
    if |calls| == 0 then [] else WrapRegions(LayoutOf(calls[0])) + LayoutAdded(calls[1..])
  }

  /** All arguments handed to the ignore list, in call order. */
  function IgnoreArgs(calls: seq<Call>): seq<Arg>
  {
    if |calls| == 0 then [] else IgnoreOf(calls[0]) + IgnoreArgs(calls[1..])
  }

  /** All arguments handed to the layout list, in call order. */
  function LayoutArgs(calls: seq<Call>): seq<Arg>
  {
    if |calls| == 0 then [] else LayoutOf(calls[0]) + LayoutArgs(calls[1..])
  }

  /** All floating selectors added, in call order. */
  function FloatingArgs(calls: seq<Call>): seq<FloatingSelector>
  {
    if |calls| == 0 then [] else FloatingOf(calls[0]) + FloatingArgs(calls[1..])
  }

  /** The match level of the last call that selects one, else `init`. */
  function LastMatchLevel(calls: seq<Call>, init: Option<CS.MatchLevel>): Option<CS.MatchLevel>
  {
    if |calls| == 0 then init
    else Updated(LastMatchLevel(calls[..|calls| - 1], init), LevelOf(calls[|calls| - 1]))
  }

  /** The stitch flag of the last `fully` call, else `init`. */
  function LastStitch(calls: seq<Call>, init: bool): bool
  {
    if |calls| == 0 then init
    else Updated(LastStitch(calls[..|calls| - 1], init), StitchOf(calls[|calls| - 1]))
  }

  /** The seconds of the last `timeout` call, else `init`. */
  function LastTimeout(calls: seq<Call>, init: real): real
  {
    if |calls| == 0 then init
    else Updated(LastTimeout(calls[..|calls| - 1], init), TimeoutOf(calls[|calls| - 1]))
  }

  /** The value of the last `ignoreCaret` call, else `init`. */
  function LastIgnoreCaret(calls: seq<Call>, init: Option<bool>): Option<bool>
  {
    if |calls| == 0 then init
    else Updated(LastIgnoreCaret(calls[..|calls| - 1], init), CaretOf(calls[|calls| - 1]))
  }

  /** One call appends to the ignore list the selectors for the Region
      arguments it hands to that list. */
  lemma ApplyIgnore(s: CS.Settings, c: Call)
    requires !Throws(c)
    ensures Apply(s, c).settings.ignoreRegions == s.ignoreRegions + WrapRegions(IgnoreOf(c))
  {
    if !c.Ignore? {
      assert WrapRegions(IgnoreOf(c)) == [];
    }
  }

  /** One call appends to the layout list the selectors for the Region
      arguments it hands to that list. */
  lemma ApplyLayout(s: CS.Settings, c: Call)
    requires !Throws(c)
    ensures Apply(s, c).settings.layoutRegions == s.layoutRegions + WrapRegions(LayoutOf(c))
  {
    if LayoutOf(c) == [] {
      assert WrapRegions(LayoutOf(c)) == [];
    }
  }

  /** One call that does not throw appends to the floating list the entries
      it adds. */
  lemma ApplyFloating(s: CS.Settings, c: Call)
    requires !Throws(c)
    ensures Apply(s, c).settings.floatingRegions == s.floatingRegions + FloatingOf(c)
  {
    match c
    case Floating(m, args) =>
      CS.FloatingAllRegions(s, m, args);
    case AddFloatingRegion(region, up, down, left, right) =>
      var r := CS.AddFloatingRegion(s, region.region, up, down, left, right);
      assert r.floatingRegions == r.floatingRegions[..|s.floatingRegions|] + [r.floatingRegions[|s.floatingRegions|]];
    case _ =>
      assert FloatingOf(c) == [];
  }

  /** One call that does not throw appends to each list exactly what the
      reference definitions say. */
  lemma ApplyLists(s: CS.Settings, c: Call)
    requires !Throws(c)
    ensures Apply(s, c).settings.ignoreRegions == s.ignoreRegions + WrapRegions(IgnoreOf(c))
    ensures Apply(s, c).settings.layoutRegions == s.layoutRegions + WrapRegions(LayoutOf(c))
    ensures Apply(s, c).settings.floatingRegions == s.floatingRegions + FloatingOf(c)
  {
    ApplyIgnore(s, c);
    ApplyLayout(s, c);
    ApplyFloating(s, c);
  }

  /** One call sets the match level, stitch flag, timeout and caret flag
      exactly as the reference definitions say, and keeps the others. */
  lemma ApplyScalars(s: CS.Settings, c: Call)
    ensures Apply(s, c).settings.matchLevel == Updated(s.matchLevel, LevelOf(c))
    ensures Apply(s, c).settings.stitchContent == Updated(s.stitchContent, StitchOf(c))
    ensures Apply(s, c).settings.timeout == Updated(s.timeout, TimeoutOf(c))
    ensures Apply(s, c).settings.ignoreCaret == Updated(s.ignoreCaret, CaretOf(c))
  {
  }

  /** Running two chains one after the other is running their concatenation;
      once the first one throws, the second never runs. */
  lemma {:induction false} RunAppend(s: CS.Settings, a: seq<Call>, b: seq<Call>)
    ensures Run(s, a + b)
         == if Run(s, a).Threw? then Run(s, a) else Run(Run(s, a).settings, b)
    decreases |a|
  {
    if |a| == 0 {
      assert a + b == b;
    } else {
      assert (a + b)[0] == a[0];
      assert (a + b)[1..] == a[1..] + b;
      var first := Apply(s, a[0]);
      if first.Returned? {
        RunAppend(first.settings, a[1..], b);
      }
    }
  }

  /** A chain with a call in front runs that call, then the rest. */
  lemma RunCons(s: CS.Settings, calls: seq<Call>)
    requires |calls| > 0 && !Throws(calls[0])
    ensures Run(s, calls) == Run(Apply(s, calls[0]).settings, calls[1..])
  {
  }

  /** The calls after the first of a well-typed chain are well typed. */
  lemma WellTypedTail(calls: seq<Call>)
    requires |calls| > 0 && WellTyped(calls)
    ensures !Throws(calls[0]) && WellTyped(calls[1..])
  {
    forall i | 0 <= i < |calls| - 1 ensures !Throws(calls[1..][i]) {
      assert calls[1..][i] == calls[i + 1];
    }
  }

  /** The first step of a well-typed chain, with its effect on the three
      region lists; the rest of the chain is well typed too. */
  lemma ListsStep(s: CS.Settings, calls: seq<Call>) returns (next: CS.Settings)
    requires |calls| > 0 && WellTyped(calls)
    ensures WellTyped(calls[1..])
    ensures Run(s, calls) == Run(next, calls[1..])
    ensures next.ignoreRegions == s.ignoreRegions + WrapRegions(IgnoreOf(calls[0]))
    ensures next.layoutRegions == s.layoutRegions + WrapRegions(LayoutOf(calls[0]))
    ensures next.floatingRegions == s.floatingRegions + FloatingOf(calls[0])
  {
    WellTypedTail(calls);
    RunCons(s, calls);
    ApplyLists(s, calls[0]);
    next := Apply(s, calls[0]).settings;
  }

  /** Adding the selectors call by call is wrapping all the arguments at
      once: a chain of `ignore` calls acts like one call with every argument. */
  lemma {:induction false} IgnoreAddedWrapsAll(calls: seq<Call>)
    ensures IgnoreAdded(calls) == WrapRegions(IgnoreArgs(calls))
  {
    if |calls| > 0 {
      IgnoreAddedWrapsAll(calls[1..]);
      WrapRegionsAppend(IgnoreOf(calls[0]), IgnoreArgs(calls[1..]));
    }
  }

  /** The same for the `add*Region` calls and the layout list. */
  lemma {:induction false} LayoutAddedWrapsAll(calls: seq<Call>)
    ensures LayoutAdded(calls) == WrapRegions(LayoutArgs(calls))
  {
    if |calls| > 0 {
      LayoutAddedWrapsAll(calls[1..]);
      WrapRegionsAppend(LayoutOf(calls[0]), LayoutArgs(calls[1..]));
    }
  }

  /** After a well-typed chain, the ignore list holds what it held before
      followed by the selectors each `ignore` call added, in call order. */
  lemma {:induction false} RunAddsIgnore(s: CS.Settings, calls: seq<Call>)
    requires WellTyped(calls)
    ensures Run(s, calls).settings.ignoreRegions == s.ignoreRegions + IgnoreAdded(calls)
    decreases |calls|
  {
    if |calls| > 0 {
      var next := ListsStep(s, calls);
      RunAddsIgnore(next, calls[1..]);
      AppendAssociative(s.ignoreRegions, WrapRegions(IgnoreOf(calls[0])), IgnoreAdded(calls[1..]));
    }
  }

  /** After a well-typed chain, the layout list holds what it held before
      followed by the selectors each `add*Region` call added, in call order. */
  lemma {:induction false} RunAddsLayout(s: CS.Settings, calls: seq<Call>)
    requires WellTyped(calls)
    ensures Run(s, calls).settings.layoutRegions == s.layoutRegions + LayoutAdded(calls)
    decreases |calls|
  {
    if |calls| > 0 {
      var next := ListsStep(s, calls);
      RunAddsLayout(next, calls[1..]);
      AppendAssociative(s.layoutRegions, WrapRegions(LayoutOf(calls[0])), LayoutAdded(calls[1..]));
    }
  }

  /** After a well-typed chain, the ignore and layout lists hold what they
      held before followed by a selector for each Region argument of the
      calls of their category, in argument order, non-Region arguments
      skipped. */
  lemma RunAccumulatesRegions(s: CS.Settings, calls: seq<Call>)
    requires WellTyped(calls)
    ensures Run(s, calls).settings.ignoreRegions == s.ignoreRegions + WrapRegions(IgnoreArgs(calls))
    ensures Run(s, calls).settings.layoutRegions == s.layoutRegions + WrapRegions(LayoutArgs(calls))
  {
    RunAddsIgnore(s, calls);
    IgnoreAddedWrapsAll(calls);
    RunAddsLayout(s, calls);
    LayoutAddedWrapsAll(calls);
  }

  /** After a well-typed chain, the floating list holds what it held before
      followed by the entries of each `floating` and `addFloatingRegion`
      call, in call order. */
  lemma {:induction false} RunAccumulatesFloating(s: CS.Settings, calls: seq<Call>)
    requires WellTyped(calls)
    ensures Run(s, calls).settings.floatingRegions == s.floatingRegions + FloatingArgs(calls)
    decreases |calls|
  {
    if |calls| > 0 {
      var next := ListsStep(s, calls);
      RunAccumulatesFloating(next, calls[1..]);
      AppendAssociative(s.floatingRegions, FloatingOf(calls[0]), FloatingArgs(calls[1..]));
    }
  }

  /** The calls before the last of a well-typed chain are well typed, and
      the chain runs them first and then its last call. */
  lemma RunSnoc(s: CS.Settings, calls: seq<Call>)
    requires |calls| > 0 && WellTyped(calls)
    ensures WellTyped(calls[..|calls| - 1])
    ensures Run(s, calls)
         == Apply(Run(s, calls[..|calls| - 1]).settings, calls[|calls| - 1])
  {
    var init := calls[..|calls| - 1];
    var last := calls[|calls| - 1];
    assert calls == init + [last];
    forall i | 0 <= i < |init| ensures !Throws(init[i]) {
      assert init[i] == calls[i];
    }
    RunAppend(s, init, [last]);
    var mid := Run(s, init).settings;
    assert Run(mid, [last]) == Apply(mid, last);
  }

  /** After a well-typed chain, the match level, stitch flag, timeout and
      caret flag are those of the last call that sets each one, or what they
      were before when no call does. */
  lemma {:induction false} RunLastWriteWins(s: CS.Settings, calls: seq<Call>)
    requires WellTyped(calls)
    ensures Run(s, calls).settings.matchLevel == LastMatchLevel(calls, s.matchLevel)
    ensures Run(s, calls).settings.stitchContent == LastStitch(calls, s.stitchContent)
    ensures Run(s, calls).settings.timeout == LastTimeout(calls, s.timeout)
    ensures Run(s, calls).settings.ignoreCaret == LastIgnoreCaret(calls, s.ignoreCaret)
    decreases |calls|
  {
    if |calls| > 0 {
      var init := calls[..|calls| - 1];
      RunSnoc(s, calls);
      RunLastWriteWins(s, init);
      ApplyScalars(Run(s, init).settings, calls[|calls| - 1]);
    }
  }

  /** A chain throws exactly when one of its calls is `addFloatingRegion`
      with a region that is not a Region, or `floating` with such an
      argument. */
  lemma {:induction false} RunThrowsIff(s: CS.Settings, calls: seq<Call>)
    ensures Run(s, calls).Threw? <==> !WellTyped(calls)
    decreases |calls|
  {
    if |calls| > 0 {
      if Throws(calls[0]) {
        assert Run(s, calls) == Apply(s, calls[0]);
      } else {
        RunCons(s, calls);
        RunThrowsIff(Apply(s, calls[0]).settings, calls[1..]);
        if WellTyped(calls[1..]) {
          forall i | 0 <= i < |calls| ensures !Throws(calls[i]) {
            if i > 0 { assert calls[i] == calls[1..][i - 1]; }
          }
        } else {
          var i :| 0 <= i < |calls[1..]| && Throws(calls[1..][i]);
          assert calls[1..][i] == calls[i + 1];
        }
      }
    }
  }

  /** Whatever chain is run on a fresh instance, the exact, content and
      strict accessors report empty lists. */
  lemma FreshChainNeverFillsExactContentStrict(target: Option<Region>, calls: seq<Call>)
    ensures Run(CS.New(target), calls).settings.exactRegions == []
    ensures Run(CS.New(target), calls).settings.contentRegions == []
    ensures Run(CS.New(target), calls).settings.strictRegions == []
  {
  }
}

=== FILE: geometry.dfy ===
/** The rectangle and size value types that the check settings and the scale
    provider consume. Their own classes are not part of this model; only the
    components they expose are. */
module Geometry {

  /** A rectangle in pixels, given by its left/top corner and its extent. */
  datatype Region = Region(left: int, top: int, width: int, height: int)

  /** A width/height pair in pixels. */
  datatype RectangleSize = RectangleSize(width: int, height: int)

  /** The library's left/top/width/height factory: the four arguments become
      the four components of the region, in that order. */
  function CreateFromLTWH(left: int, top: int, width: int, height: int): Region
  {
    Region(left, top, width, height)
  }
}

=== FILE: region_selectors.dfy ===
/** The region-selector wrappers that CheckSettings stores, and the filtering
    of variadic PHP arguments into them. */
module RegionSelectors {
  import opened Geometry

  /** One argument of a variadic PHP call: either a Region instance or some
      other value (null, a number, an unrelated object). */
  datatype Arg = RegionArg(region: Region) | NonRegion

  /** A region selector holding one literal rectangle (RegionsByRectangle). */
  datatype RegionSelector = ByRectangle(region: Region)

  /** A floating-region selector holding one literal rectangle and how far its
      content may move up, down, left and right (FloatingRegionsByRectangle). */
  datatype FloatingSelector =
    FloatingByRectangle(region: Region, maxUpOffset: int, maxDownOffset: int,
                        maxLeftOffset: int, maxRightOffset: int)

  /** Every argument is a Region instance. */
  predicate AllRegions(args: seq<Arg>)
  {
    forall i :: 0 <= i < |args| ==> args[i].RegionArg?
  }

  /** The `foreach ... if ($region instanceof Region)` filter shared by
      `ignore` and the four `add*Region` mutators: each Region argument is
      wrapped in a rectangle selector, in argument order; any other argument
      is skipped. */
  function WrapRegions(args: seq<Arg>): (r: seq<RegionSelector>)
    ensures |r| <= |args|
    ensures |r| == |args| <==> AllRegions(args)
    ensures AllRegions(args) ==>
              forall i :: 0 <= i < |args| ==> r[i] == ByRectangle(args[i].region)
  {
    if |args| == 0 then []
    else
      var rest := WrapRegions(args[1..]);
      match args[0]
      case RegionArg(reg) => [ByRectangle(reg)] + rest
      case NonRegion => rest
  }

  /** A rectangle is wrapped exactly when it is one of the arguments: nothing
      is invented and no Region argument is lost. */
  lemma {:induction false} WrapRegionsMembership(args: seq<Arg>, reg: Region)
    ensures ByRectangle(reg) in WrapRegions(args) <==> RegionArg(reg) in args
  {
    if |args| > 0 {
      assert args == [args[0]] + args[1..];
      WrapRegionsMembership(args[1..], reg);
    }
  }

  /** Wrapping distributes over concatenation of the argument lists: two calls
      in a row append what one call with both argument lists would. */
  lemma {:induction false} WrapRegionsAppend(a: seq<Arg>, b: seq<Arg>)
    ensures WrapRegions(a + b) == WrapRegions(a) + WrapRegions(b)
  {
    if |a| == 0 {
      assert a + b == b;
    } else {
      assert (a + b)[1..] == a[1..] + b;
      WrapRegionsAppend(a[1..], b);
    }
  }

  /** The position of the first argument that is not a Region, or |args| when
      every argument is one. */
  function FirstNonRegion(args: seq<Arg>): (k: nat)
    ensures k <= |args|
    ensures forall i :: 0 <= i < k ==> args[i].RegionArg?
    ensures k < |args| ==> args[k].NonRegion?
  {
    if |args| == 0 || args[0].NonRegion? then 0
    else 1 + FirstNonRegion(args[1..])
  }

  /** The rectangle that `addFloatingRegion` hands to CreateFromLTWH: the
      right and bottom edges of the given region are passed where the factory
      expects a width and a height. */
  function FloatingRectangle(region: Region): (r: Region)
    ensures r.left == region.left && r.top == region.top
    ensures r.width - region.width == region.left
    ensures r.height - region.height == region.top
  {
    CreateFromLTWH(region.left, region.top,
                   region.left + region.width, region.top + region.height)
  }

  /** The stored floating rectangle has the given extent only when the
      corner sits on the origin's axes. */
  lemma FloatingRectangleExtent(region: Region)
    ensures FloatingRectangle(region).width == region.width <==> region.left == 0
    ensures FloatingRectangle(region).height == region.height <==> region.top == 0
  {
  }
}

=== FILE: scale_provider.dfy ===
/** The context-based scale provider
    (eyes.selenium.php/ContextBasedScaleProvider.php): it decides, from the
    width of a captured image, whether the image must be scaled down by the
    device pixel ratio. It has two states: ratio unknown (right after
    construction) and ratio known (after the first update). */
module ContextBasedScaleProvider {
  import opened Common
  import opened Geometry

  /** How far the image width may stray from the viewport width. */
  const AllowedVsDeviation: int := 1
  /** How far the image width may stray from the top-level content width. */
  const AllowedDcesDeviation: int := 10
  /** The ratio value that marks "not computed yet". */
  const UnknownScaleRatio: real := 0.0

  /** The resampling strategy; stored and never inspected here. */
  datatype ScaleMethod = ScaleMethod(name: string)

  /** The state of one provider. Only `scaleRatio` ever changes. */
  datatype Provider = Provider(
    topLevelContextEntireSize: RectangleSize,
    viewportSize: RectangleSize,
    scaleMethod: ScaleMethod,
    devicePixelRatio: real,
    scaleRatio: real)

  /** The invalid-state failure of the argument guard. */
  datatype Error = InvalidState(message: string)

  /** The provider has computed a ratio. */
  predicate RatioKnown(p: Provider)
  {
    p.scaleRatio != UnknownScaleRatio
  }

  /** `p` and `q` were built from the same sizes, method and pixel ratio. */
  predicate SameConfiguration(p: Provider, q: Provider)
  {
    && p.topLevelContextEntireSize == q.topLevelContextEntireSize
    && p.viewportSize == q.viewportSize
    && p.scaleMethod == q.scaleMethod
    && p.devicePixelRatio == q.devicePixelRatio
  }

  /** The distance between two widths. */
  function Distance(a: int, b: int): nat
  {
    if a < b then b - a else a - b
  }

  /** The image width matches a reference width the provider knows: the
      viewport width up to one pixel or the top-level content width up to ten
      pixels, both bounds included. */
  predicate MatchesKnownWidth(p: Provider, imageWidth: int)
  {
    || Distance(imageWidth, p.viewportSize.width) <= AllowedVsDeviation
    || Distance(imageWidth, p.topLevelContextEntireSize.width) <= AllowedDcesDeviation
  }

  /** The constructor: stores its arguments unchanged, without validating
      them, and starts with the ratio unknown. */
  function New(topLevelContextEntireSize: RectangleSize, viewportSize: RectangleSize,
               scaleMethod: ScaleMethod, devicePixelRatio: real): (p: Provider)
    ensures p.topLevelContextEntireSize == topLevelContextEntireSize
    ensures p.viewportSize == viewportSize
    ensures p.scaleMethod == scaleMethod
    ensures p.devicePixelRatio == devicePixelRatio
    ensures !RatioKnown(p)
    ensures GetScaleRatio(p).Failure?
  {
    Provider(topLevelContextEntireSize, viewportSize, scaleMethod, devicePixelRatio,
             UnknownScaleRatio)
  }

  /** `getScaleRatio()`: the ratio, guarded by the valid-state check that it
      has been computed. */
  function GetScaleRatio(p: Provider): (r: Result<real, Error>)
    ensures r.Success? <==> RatioKnown(p)
    ensures r.Success? ==> r.value == p.scaleRatio && r.value != 0.0
    ensures r.Failure? ==> r.error == InvalidState("scaleRatio not defined yet")
  {
    if p.scaleRatio != UnknownScaleRatio then Success(p.scaleRatio)
    else Failure(InvalidState("scaleRatio not defined yet"))
  }

  /** `updateScaleRatio($imageToScaleWidth)`: the ratio becomes 1 when the
      image already has a known reference width, and otherwise the reciprocal
      of the device pixel ratio. The source divides by the pixel ratio in
      that second case, so there it must not be zero. */
  function UpdateScaleRatio(p: Provider, imageWidth: int): (q: Provider)
    requires MatchesKnownWidth(p, imageWidth) || p.devicePixelRatio != 0.0
    ensures SameConfiguration(p, q)
    ensures MatchesKnownWidth(p, imageWidth) ==> q.scaleRatio == 1.0
    ensures !MatchesKnownWidth(p, imageWidth) ==> q.scaleRatio * p.devicePixelRatio == 1.0
    ensures RatioKnown(q)
  {
    var viewportWidth := p.viewportSize.width;
    var dcesWidth := p.topLevelContextEntireSize.width;
    if (imageWidth >= viewportWidth - AllowedVsDeviation
        && imageWidth <= viewportWidth + AllowedVsDeviation)
       || (imageWidth >= dcesWidth - AllowedDcesDeviation
           && imageWidth <= dcesWidth + AllowedDcesDeviation)
    then p.(scaleRatio := 1.0)
    else p.(scaleRatio := 1.0 / p.devicePixelRatio)
  }

  /** The ratio is 1 exactly when the image has a known reference width or
      the device pixel ratio is itself 1. */
  lemma RatioIsOneIff(p: Provider, imageWidth: int)
    requires MatchesKnownWidth(p, imageWidth) || p.devicePixelRatio != 0.0
    ensures UpdateScaleRatio(p, imageWidth).scaleRatio == 1.0
        <==> MatchesKnownWidth(p, imageWidth) || p.devicePixelRatio == 1.0
  {
    var q := UpdateScaleRatio(p, imageWidth);
    if !MatchesKnownWidth(p, imageWidth) && q.scaleRatio == 1.0 {
      assert p.devicePixelRatio == 1.0 * p.devicePixelRatio;
    }
  }

  /** On a device whose pixel ratio is at least 1, the ratio only ever
      scales down: it lies in (0, 1]. */
  lemma RatioScalesDown(p: Provider, imageWidth: int)
    requires p.devicePixelRatio >= 1.0
    ensures 0.0 < UpdateScaleRatio(p, imageWidth).scaleRatio <= 1.0
  {
    var q := UpdateScaleRatio(p, imageWidth);
    if !MatchesKnownWidth(p, imageWidth) {
      assert q.scaleRatio == 1.0 / p.devicePixelRatio;
    }
  }

  /** Once an update has run, `getScaleRatio()` succeeds and returns the
      computed ratio; no later update makes it fail again. */
  lemma GetAfterUpdate(p: Provider, imageWidth: int)
    requires MatchesKnownWidth(p, imageWidth) || p.devicePixelRatio != 0.0
    ensures GetScaleRatio(UpdateScaleRatio(p, imageWidth))
         == Success(UpdateScaleRatio(p, imageWidth).scaleRatio)
  {
  }

  /** The ratio depends only on the image width and the configuration: not
      on the ratio computed before. Hence repeating an update with the same
      width changes nothing, and a later update overrides an earlier one. */
  lemma UpdateDependsOnlyOnConfiguration(p: Provider, q: Provider, imageWidth: int)
    requires MatchesKnownWidth(p, imageWidth) || p.devicePixelRatio != 0.0
    requires SameConfiguration(p, q)
    ensures UpdateScaleRatio(p, imageWidth) == UpdateScaleRatio(q, imageWidth)
  {
  }

  /** Updating twice with the same width yields the same provider as once. */
  lemma UpdateIdempotent(p: Provider, imageWidth: int)
    requires MatchesKnownWidth(p, imageWidth) || p.devicePixelRatio != 0.0
    ensures UpdateScaleRatio(UpdateScaleRatio(p, imageWidth), imageWidth)
         == UpdateScaleRatio(p, imageWidth)
  {
    UpdateDependsOnlyOnConfiguration(UpdateScaleRatio(p, imageWidth), p, imageWidth);
  }

  /** A later update overrides an earlier one. */
  lemma UpdateOverrides(p: Provider, first: int, second: int)
    requires MatchesKnownWidth(p, first) || p.devicePixelRatio != 0.0
    requires MatchesKnownWidth(p, second) || p.devicePixelRatio != 0.0
    ensures UpdateScaleRatio(UpdateScaleRatio(p, first), second)
         == UpdateScaleRatio(p, second)
  {
    UpdateDependsOnlyOnConfiguration(UpdateScaleRatio(p, first), p, second);
  }

  /** The worked example of a viewport 1000 wide, content 2000 wide and a
      pixel ratio of 2: widths within one pixel of 1000 or ten pixels of
      2000 keep the image as is; any other width halves it. */
  lemma ExampleRatios(topHeight: int, viewportHeight: int, scaleMethod: ScaleMethod)
    ensures var p := New(RectangleSize(2000, topHeight), RectangleSize(1000, viewportHeight),
                         scaleMethod, 2.0);
      && UpdateScaleRatio(p, 1000).scaleRatio == 1.0
      && UpdateScaleRatio(p, 999).scaleRatio == 1.0
      && UpdateScaleRatio(p, 1001).scaleRatio == 1.0
      && UpdateScaleRatio(p, 998).scaleRatio == 0.5
      && UpdateScaleRatio(p, 1002).scaleRatio == 0.5
      && UpdateScaleRatio(p, 1990).scaleRatio == 1.0
      && UpdateScaleRatio(p, 2005).scaleRatio == 1.0
      && UpdateScaleRatio(p, 2010).scaleRatio == 1.0
      && UpdateScaleRatio(p, 1989).scaleRatio == 0.5
      && UpdateScaleRatio(p, 2011).scaleRatio == 0.5
      && UpdateScaleRatio(p, 1500).scaleRatio == 0.5
      && forall w :: 999 <= w <= 1001 || 1990 <= w <= 2010 ==> UpdateScaleRatio(p, w).scaleRatio == 1.0
  {
  }
}
